=== FILE: README.md ===
# Elgato light control: a Dafny model of the client's decision logic

`elgato_control.py` drives one Elgato key light over its local HTTP API.
It holds a class `ElgatoLight` with three parts:

- a cached view of the light (brightness, colour temperature, on/off);
- a refresh that overwrites the view from `GET /elgato/lights`;
- zero-argument actions, each sending one `PUT /elgato/lights` body and then refreshing.

The command line derives its list of commands and scenes by introspecting the class.
It then applies a scene followed by `on`, or runs a single command, or prints the usage text and exits with status 1.

The project models that decision logic and proves what it promises:

- `wrappers.dfy` (`Wrappers`): `Option`.
- `light_state.dfy` (`LightState`) covers the following:
  - the cached view `Light`;
  - the decoded GET reply `Response`, whose `lights` key may be missing and whose entries may lack fields;
  - `Refresh`, which models `_update`;
  - `Connect`, which models construction.
- `requests.dfy` (`Requests`) covers the following:
  - the PUT body `Body`, with its three optional fields;
  - the actions;
  - `PutBody`, which gives the body each action sends from the cached view. It models `_power`, `_set_brightness`, `_set_temperature`, `_set_scene` and the public methods;
  - `Apply`, an idealised device's reaction to a body, used as the partner for the inverse lemmas.
- `surface.dfy` (`Surface`) covers the following:
  - the class as an attribute table in `dir()` order;
  - the `get_commands` and `get_scenes` filters (`Commands`, `Scenes`);
  - the `getattr` lookup `Find`;
  - the concrete class `ElgatoClass`, with its command and scene lists computed.
- `dispatch.dfy` (`Dispatch`) covers the following:
  - the command-line branches (`Decide`);
  - running actions against a device, where the device is a function from the client's view and the body sent to the reply of the following GET (`Run`);
  - one invocation on an already connected client (`Execute`);
  - the whole program, construction included (`Invocation`).

## Model

| member | source | states |
|---|---|---|
| `LightState.Refresh` | elgato_control.py:40-49 | Zero lights, or a missing `lights` key, leaves the view unchanged. Otherwise each field comes from the first light: a missing brightness or temperature reads as 0, and a missing `on` reads as off. Truthiness decides `is_on`. The address is never touched. |
| `LightState.Connect` | elgato_control.py:36-38 | Construction starts from the class defaults (0, 0, false) at the given address. A reply with no light leaves those defaults in place. |
| `LightState.RefreshFromReport` | elgato_control.py:46-49 | A reply that reports a state as its only light is read back as exactly that state, whatever was cached before. |
| `LightState.RefreshForgetsPrior` | elgato_control.py:44-49 | Once at least one light is reported, the cached values play no part in the result. |
| `LightState.RefreshReadsFirstOnly` | elgato_control.py:46 | Entries after the first light are ignored. |
| `LightState.RefreshDefaults` | elgato_control.py:47-49 | A first light with no fields reads as brightness 0, temperature 0, off. |
| `LightState.RefreshIdempotent` | elgato_control.py:40-49 | Refreshing twice from the same reply equals refreshing once. |
| `LightState.RefreshIntegerOn` | elgato_control.py:49 | An integer `on` counts as on exactly when it is non-zero. |
| `Requests.PowerBody` | elgato_control.py:51-58 | The power body carries only `on`. That value is 1 exactly when switching on and 0 exactly when switching off. |
| `Requests.BrightnessBody` | elgato_control.py:71-78 | The brightness body carries only `brightness`, with the given value. |
| `Requests.TemperatureBody` | elgato_control.py:82-89 | The temperature body carries only `temperature`, with the given value. |
| `Requests.SceneBody` | elgato_control.py:93-101 | The scene body carries exactly temperature and brightness, in one request, with the given values. |
| `Requests.PutBody` | elgato_control.py:51-133 | An action sends a body exactly when it talks to the device, which every action except the two listing methods does. Each body holds exactly the fields its action governs: power for on/off/toggle, brightness for bright/dim and their relative forms, temperature for warm/cool and theirs, both for a scene. |
| `Requests.ToggleNegates` | elgato_control.py:62-63 | `toggle` sends `on` = 1 exactly when the light is cached as off, and 0 exactly when it is cached as on. |
| `Requests.PowerIsAbsolute` | elgato_control.py:65-69 | `on` and `off` send 1 and 0 whatever the cached state. |
| `Requests.AbsoluteLevels` | elgato_control.py:105-121 | `bright` sends 50, `dim` 30, `warm` 272 and `cool` 200, whatever the cached state. |
| `Requests.RelativeSteps` | elgato_control.py:108-127 | `brighter`/`dimmer` send the cached brightness plus or minus 10. `warmer`/`cooler` do the same for temperature. |
| `Requests.NoClamping` | elgato_control.py:108-115 | Nothing clamps: at brightness 100, `brighter` asks for 110, and at 0, `dimmer` asks for -10. |
| `Requests.ScenePresets` | elgato_control.py:129-133 | Evening sends temperature 272 and brightness 30. Daytime sends 200 and 50. |
| `Requests.ApplyTouchesOnlyGoverned` | elgato_control.py:51-103 | Applied by an idealised device, an action's body leaves every setting it does not govern as it was, and the address too. |
| `Requests.ApplyToggleInverts` | elgato_control.py:62-63 | Applied by an idealised device, `toggle` inverts the power state and nothing else. |
| `Surface.CommandNames` | elgato_control.py:26 | The filter keeps a sub-list of the attribute names, so it never lists more names than there are attributes. |
| `Surface.CommandNamesMembers` | elgato_control.py:26 | A name survives the command filter exactly when some callable attribute has it and it starts with neither `_` nor `scene_`. |
| `Surface.Commands` | elgato_control.py:25-28 | The command list ends with `scene`. Its other members are exactly the filtered names. No entry, `scene` included, starts with `scene_` or `_`. |
| `Surface.SceneNames` | elgato_control.py:32-33 | The scene comprehension yields at most one name per attribute. |
| `Surface.SceneNamesMembers` | elgato_control.py:32-33 | A name is listed as a scene exactly when `scene_` followed by it names a callable attribute. |
| `Surface.Scenes` | elgato_control.py:31-34 | The scene list is every callable `scene_` name with its first six characters removed, and nothing else. |
| `Surface.Find` | elgato_control.py:150-157 | `getattr` followed by the call, for a public zero-argument action: the lookup succeeds exactly when the class holds a public action of that name, and returns that action. Dispatch only looks up names that passed the command or scene filter, so data attributes and `_`-prefixed names never reach it. |
| `Surface.FindAppend` | elgato_control.py:150 | Looking a name up in a joined table searches the first part and then the second. |
| `Surface.CommandsAvoidScenes` | elgato_control.py:26-27 | No command coincides with a `scene_` name. |
| `Surface.SceneIsDispatchable` | elgato_control.py:149-150 | Every listed scene resolves, under `scene_` + name, to a scene action that the class holds under that name. |
| `Surface.CommandIsDispatchable` | elgato_control.py:156-157 | Every listed command other than `scene` resolves to a non-scene action that the class holds under that name. |
| `Surface.FoundIsCommand` | elgato_control.py:26 | An action found under a name with neither prefix is listed as a command. |
| `Surface.CommandNamesAppend` | elgato_control.py:26 | The command filter distributes over joining tables. |
| `Surface.SceneNamesAppend` | elgato_control.py:32-33 | The scene filter distributes over joining tables. |
| `Surface.AddedSceneSurfaces` | elgato_control.py:31-34 | Adding a `scene_` method anywhere in the class lists its name as a scene, in place, and leaves the command list unchanged. |
| `Surface.UnderscoreIgnored` | elgato_control.py:26-32 | An attribute whose name starts with `_` changes neither list. |
| `Surface.PlainRunLists` | elgato_control.py:26-32 | In a run of data attributes and public non-scene actions, the callable names are exactly the commands, and there are no scenes. |
| `Surface.PrivateRunLists` | elgato_control.py:26-32 | A run of `_`-prefixed, non-public attributes contributes no command and no scene. |
| `Surface.ElgatoCommands` | elgato_control.py:25-28 | The client's command list is the eleven light actions and the two listing methods, in `dir()` order, followed by `scene`. |
| `Surface.ElgatoCommandsUnlisted` | elgato_control.py:25-28 | A name outside that list is not a command of the client. |
| `Surface.ElgatoScenes` | elgato_control.py:31-34 | The client's scene list is `daytime`, then `evening`. |
| `Surface.ElgatoSceneActions` | elgato_control.py:129-133 | `getattr` on `scene_evening` and `scene_daytime` finds the (272, 30) and (200, 50) presets. |
| `Surface.ElgatoFindToggle` | elgato_control.py:62-63 | `getattr` on `toggle` finds the toggle action. |
| `Surface.ElgatoWellFormed` | elgato_control.py:18-133 | Every public callable of the class is a zero-argument action, and exactly the `scene_` ones apply a scene. |
| `Dispatch.Decide` | elgato_control.py:148-160 | `scene` with a listed scene runs the scene's action and then `on`. Any other listed command runs exactly its own action. Every other case is a usage failure with status 1. Each branch is an if-and-only-if. |
| `Dispatch.Run` | elgato_control.py:59-60 | Each action that talks to the device sends one PUT and refreshes. The number of PUTs equals the number of such actions, and without one the view is unchanged. |
| `Dispatch.Execute` | elgato_control.py:148-160 | On an already connected client: the exit status is 0 or 1. A usage failure sends nothing and changes nothing. A scene sends exactly two PUTs: temperature and brightness, then `on` = 1. A direct command sends at most one PUT. |
| `Dispatch.Invocation` | elgato_control.py:137-160 | The whole program: construction with its first GET, then the command line. The exit status is 0 or 1. A usage failure sends nothing and leaves the view as construction set it. A scene sends exactly two PUTs, the preset pair then `on` = 1. A direct command sends at most one PUT. |
| `Dispatch.ToggleReadsFirstReply` | elgato_control.py:36-63 | `toggle` acts on the state fetched at construction: it sends 1 exactly when the first light's `on` is falsy, and a first light without `on` reads as off, so `toggle` sends 1. |
| `Dispatch.ToggleAfterEmptyReply` | elgato_control.py:19-63 | With no light in the construction reply, the class default `is_on = False` stands and `toggle` sends 1. |
| `Dispatch.RunSingle` | elgato_control.py:59-60 | One action is one PUT of its body followed by one refresh, or nothing for a listing method. |
| `Dispatch.SceneArgumentIgnored` | elgato_control.py:156-157 | The scene argument plays no part unless the command is `scene`. |
| `Dispatch.SceneThenOn` | elgato_control.py:148-151 | A scene found under `scene_` + name sends its preset pair and then `on` = 1, whatever the device replies in between. |
| `Dispatch.ElgatoEvening` | elgato_control.py:148-151 | `scene evening` sends (272, 30) and then `on` = 1. |
| `Dispatch.ElgatoDaytime` | elgato_control.py:148-151 | `scene daytime` sends (200, 50) and then `on` = 1. |
| `Dispatch.DirectCommand` | elgato_control.py:156-157 | A listed command sends exactly the body of the action it resolves to, or nothing for a listing method, and exits with 0. |
| `Dispatch.ToggleCommand` | elgato_control.py:62-63 | With `toggle` resolving to the toggle action, the command sends one PUT with `on` = 1 exactly when the light was off. |
| `Dispatch.ElgatoToggle` | elgato_control.py:62-63 | On the client class, `toggle` sends one PUT with `on` = 1 exactly when the light was off. |
| `Dispatch.ElgatoSceneMissing` | elgato_control.py:152-155 | `scene` without a scene name exits with 1, with no PUT and no change. |
| `Dispatch.RejectedSendsNothing` | elgato_control.py:148-160 | An unlisted scene or an unlisted command exits with 1, having sent nothing and changed nothing. |
| `Dispatch.UnlistedSceneRejected` | elgato_control.py:148-155 | For any well-formed class, `scene` with a name outside the scene list exits with 1, sends no PUT and leaves the view as it was. |
| `Dispatch.ElgatoSceneUnknown` | elgato_control.py:152-155 | `scene` with a name other than `daytime` or `evening` exits with 1 and sends no PUT. |
| `Dispatch.ElgatoCommandUnknown` | elgato_control.py:158-160 | A command outside the client's list exits with 1 and sends no PUT. |
| `Dispatch.ToggleTwiceRestores` | elgato_control.py:62-63 | Against an idealised device, `toggle` inverts the light and `toggle` twice restores it. |
| `Dispatch.BrighterThenDimmerRestores` | elgato_control.py:108-115 | Against an idealised device, `brighter` then `dimmer` restores the light. |
| `Dispatch.WarmerThenCoolerRestores` | elgato_control.py:123-127 | Against an idealised device, `warmer` then `cooler` restores the light. |
| `Dispatch.SceneLeavesLightOn` | elgato_control.py:148-151 | Against an idealised device, a scene leaves the light on at its preset pair. |

## Behaviour worth noting

- `get_commands` and `get_scenes` are callable and carry neither prefix, so they pass the filter at line 26 and are commands (`Surface.ElgatoCommands`). Running one sends nothing and exits with 0.
- `argparse`'s `choices` (lines 143-144) rejects an unknown command or scene with status 2 before lines 148-160 run. The status-1 branches are therefore reached only when the scene name is missing. The model states those branches as written (`Dispatch.Decide`). The `argparse` layer is listed below.

## Left out

- HTTP: the session, headers, URLs, the 5-second timeout, JSON decoding and transport or HTTP errors. Each PUT is represented by its body. Each refresh GET is the device's reply, supplied by a `Device` function parameter.
- The `ELGATO_LIGHT_IP` environment variable and its default address: the address is a parameter.
- The address quirk: refresh GETs go to the instance's `ip_address`, while PUTs go to the module-level address. They coincide for the one instance the program builds, so the model keeps one address.
- `argparse`: its `choices` rejection (exit status 2), its help text and the printing of usage.
- `dir()` and `callable`: these are replaced by a static attribute table in `dir()`'s sorted order. Only a representative few dunder attributes are listed, some the class's own (`__dict__`, `__doc__`, `__module__`) and some inherited from `object` (`__class__`), because the full set depends on the Python version. `Surface.UnderscoreIgnored` shows that no `_` name can change either list.
- The device's replies are a function of the client's view and the body sent, so a device that answers the same pair differently at different times is not expressible. One invocation sends at most two PUTs, with different bodies, so every pair of replies an invocation can see is still covered.
- Attribute names are not checked for uniqueness, since a Python class cannot have two attributes of the same name. `Find` returns the first match.
- Reply values that are not integers (floats, strings, `null`) for brightness or temperature. `on` is modelled as a boolean or an integer.
- `Surface.CommandNames`: its own contract states only the length bound. Which names it keeps is stated by `Surface.CommandNamesMembers` and, for the whole list, by `Surface.Commands`; keeping the membership out of the recursive function's contract keeps the evaluation of the concrete `ElgatoLight` table small.
- `Surface.SceneNames`: likewise, its own contract states only the length bound. Which names it yields is stated by `Surface.SceneNamesMembers` and `Surface.Scenes`.
- Device replies that make `_update` raise are not modelled; `Response` expresses only a JSON object whose `lights` is absent or a list of objects. Among the shapes that crash the source: a reply that is not an object (the `.get` at elgato_control.py:43 raises `AttributeError`), `{"lights": null}` (`len(None)` at elgato_control.py:44 raises `TypeError`), a `lights` value without a length such as `{"lights": 5}` (`len` at elgato_control.py:44 raises `TypeError`), a non-empty object as `lights` such as `{"lights": {"a": 1}}` (`lights[0]` at elgato_control.py:46 raises `KeyError`), and a first entry that is not an object (the `.get` at elgato_control.py:47 raises `AttributeError`). Each ends the program with a traceback, before any command runs when it happens in the constructor.
- `Connect`'s contract states only the defaults and the address. What the first reply sets is `LightState.Refresh`'s contract, since `Connect` is `Refresh` applied to the defaults.

=== FILE: dispatch.dfy ===
/**
 * The command line: the choice between a scene, a direct command and the
 * usage failure, and the sequence of PUTs the chosen actions send.
 */
module Dispatch {
  import opened Wrappers
  import opened LightState
  import opened Requests
  import opened Surface

  /** Run these actions in order, or print the usage text and exit with `status`. */
  datatype Outcome = Invoke(actions: seq<Action>) | Usage(status: int)

  const UsageStatus: int := 1

  /**
   * The explicit branches of the command line. "scene" with a listed scene
   * applies that scene and then switches the light on; "scene" with a
   * missing or unlisted scene is a usage failure; any other listed command
   * runs exactly its own action, ignoring the scene argument; anything else
   * is a usage failure.
   */
  function Decide(t: seq<Attr>, command: string, scene: Option<string>): (r: Outcome)
    requires WellFormed(t)
    ensures r.Usage? ==> r.status == UsageStatus
    ensures command == SceneCommand ==>
              (r.Invoke? <==> scene.Some? && exists a :: a in t && IsSceneAttr(a) && a.name == ScenePrefix + scene.value)
    ensures command != SceneCommand ==>
              (r.Invoke? <==> exists a :: a in t && IsCommandAttr(a) && a.name == command)
    ensures command == SceneCommand && r.Invoke? ==>
              && |r.actions| == 2
              && r.actions[0].ApplyScene?
              && Attr(ScenePrefix + scene.value, Public(r.actions[0])) in t
              && r.actions[1] == On
    ensures command != SceneCommand && r.Invoke? ==>
              && |r.actions| == 1
              && !r.actions[0].ApplyScene?
              && Attr(command, Public(r.actions[0])) in t
  {
    if command == SceneCommand then
      if scene.Some? && scene.value in Scenes(t) then
        SceneIsDispatchable(t, scene.value);
        Invoke([Find(t, ScenePrefix + scene.value).value, On])
      else
        Usage(UsageStatus)
    else if command in Commands(t) then
      CommandIsDispatchable(t, command);
      Invoke([Find(t, command).value])
    else
      Usage(UsageStatus)
  }

  /**
   * The device, seen from the client: its reply to the refresh GET that
   * follows a PUT, given the client's view before the PUT and the body sent.
   */
  type Device = (Light, Body) -> Response

  /** The PUT bodies sent, in order, and the client's view at the end. */
  datatype Trace = Trace(puts: seq<Body>, final: Light)

  /** Number of actions in a sequence that talk to the device. */
  function CountPuts(actions: seq<Action>): nat {
    if |actions| == 0 then 0
    else (if Puts(actions[0]) then 1 else 0) + CountPuts(actions[1..])
  }

  /**
   * Runs actions one after another. Each action that talks to the device
   * sends one PUT built from the current view, then refreshes the view from
   * the device's reply; the listing methods send nothing and change nothing.
   */
  function Run(s: Light, actions: seq<Action>, device: Device): (r: Trace)
    ensures r.final.address == s.address
    ensures |r.puts| == CountPuts(actions)
    ensures CountPuts(actions) == 0 ==> r.final == s
    decreases |actions|
  {
    if |actions| == 0 then Trace([], s)
    else
      match PutBody(s, actions[0])
      case None => Run(s, actions[1..], device)
      case Some(b) =>
        var rest := Run(Refresh(s, device(s, b)), actions[1..], device);
        Trace([b] + rest.puts, rest.final)
  }

  /** The result of one invocation: exit status, PUTs sent, final view. */
  datatype Exit = Exit(status: int, puts: seq<Body>, final: Light)

  /**
   * One invocation of the program on an already connected client `s`.
   * A usage failure exits with status 1 having sent nothing; otherwise the
   * dispatched actions run and the status is 0.
   */
  function Execute(t: seq<Attr>, s: Light, command: string, scene: Option<string>, device: Device): (r: Exit)
    requires WellFormed(t)
    ensures r.status == 0 || r.status == UsageStatus
    ensures r.status == UsageStatus ==> r.puts == [] && r.final == s
    ensures r.final.address == s.address
    ensures command == SceneCommand && r.status == 0 ==>
              && |r.puts| == 2
              && Fields(r.puts[0]) == {TemperatureField, BrightnessField}
              && r.puts[1] == PowerBody(true)
    ensures command != SceneCommand && r.status == 0 ==> |r.puts| <= 1
  {
    match Decide(t, command, scene)
    case Usage(code) => Exit(code, [], s)
    case Invoke(actions) =>
      var trace := Run(s, actions, device);
      if command == SceneCommand then
        var b := PutBody(s, actions[0]).value;
        var s1 := Refresh(s, device(s, b));
        assert actions[1..] == [On];
        RunSingle(s1, On, device);
        assert trace.puts == [b] + Run(s1, [On], device).puts;
        Exit(0, trace.puts, trace.final)
      else
        Exit(0, trace.puts, trace.final)
  }

  /** One action is one PUT of its body followed by one refresh, or nothing for a listing. */
  lemma RunSingle(s: Light, a: Action, device: Device)
    ensures Puts(a) ==> Run(s, [a], device)
                        == Trace([PutBody(s, a).value], Refresh(s, device(s, PutBody(s, a).value)))
    ensures !Puts(a) ==> Run(s, [a], device) == Trace([], s)
  {
    assert [a][1..] == [];
  }

  /** The scene argument plays no part unless the command is "scene". */
  lemma SceneArgumentIgnored(t: seq<Attr>, command: string, scene: Option<string>)
    requires WellFormed(t)
    requires command != SceneCommand
    ensures Decide(t, command, scene) == Decide(t, command, None)
  {
  }

  /**
   * A scene method found under "scene_" + name sends its preset pair in one
   * PUT and then `on` in a second PUT, whatever the device replies between.
   */
  lemma SceneThenOn(t: seq<Attr>, s: Light, name: string, temperature: int, brightness: int, device: Device)
    requires WellFormed(t)
    requires Find(t, ScenePrefix + name) == Some(ApplyScene(temperature, brightness))
    ensures Execute(t, s, SceneCommand, Some(name), device).status == 0
    ensures Execute(t, s, SceneCommand, Some(name), device).puts
            == [SceneBody(temperature, brightness), PowerBody(true)]
  {
    var a := Attr(ScenePrefix + name, Public(ApplyScene(temperature, brightness)));
    assert a.name[..|ScenePrefix|] == ScenePrefix;
    assert IsSceneAttr(a);
    var actions := Decide(t, SceneCommand, Some(name)).actions;
    assert actions[0] == ApplyScene(temperature, brightness);
    var s1 := Refresh(s, device(s, SceneBody(temperature, brightness)));
    assert actions[1..] == [On];
    RunSingle(s1, On, device);
  }

  /** `evening` through the command line: (272, 30) in one PUT, then `on`. */
  lemma ElgatoEvening(s: Light, device: Device)
    ensures WellFormed(ElgatoClass)
    ensures Execute(ElgatoClass, s, "scene", Some("evening"), device).status == 0
    ensures Execute(ElgatoClass, s, "scene", Some("evening"), device).puts
            == [Body(None, Some(30), Some(272)), Body(Some(1), None, None)]
  {
    ElgatoWellFormed();
    ElgatoSceneActions();
    SceneThenOn(ElgatoClass, s, "evening", 272, 30, device);
  }

  /** `daytime` through the command line: (200, 50) in one PUT, then `on`. */
  lemma ElgatoDaytime(s: Light, device: Device)
    ensures WellFormed(ElgatoClass)
    ensures Execute(ElgatoClass, s, "scene", Some("daytime"), device).status == 0
    ensures Execute(ElgatoClass, s, "scene", Some("daytime"), device).puts
            == [Body(None, Some(50), Some(200)), Body(Some(1), None, None)]
  {
    ElgatoWellFormed();
    ElgatoSceneActions();
    SceneThenOn(ElgatoClass, s, "daytime", 200, 50, device);
  }

  /**
   * A direct command sends exactly the body of the action it resolves to
   * (nothing for a listing method), whatever the scene argument.
   */
  lemma DirectCommand(t: seq<Attr>, s: Light, command: string, scene: Option<string>, device: Device)
    requires WellFormed(t)
    requires command in Commands(t) && command != SceneCommand
    ensures Find(t, command).Some?
    ensures Execute(t, s, command, scene, device).status == 0
    ensures Execute(t, s, command, scene, device).puts
            == if Puts(Find(t, command).value) then [PutBody(s, Find(t, command).value).value] else []
  {
    CommandIsDispatchable(t, command);
    RunSingle(s, Find(t, command).value, device);
  }

  /** Any table whose `toggle` is the toggle action sends `on` = 1 exactly when the light was off. */
  lemma ToggleCommand(t: seq<Attr>, s: Light, scene: Option<string>, device: Device)
    requires WellFormed(t)
    requires Find(t, "toggle") == Some(Toggle)
    ensures Execute(t, s, "toggle", scene, device).status == 0
    ensures Execute(t, s, "toggle", scene, device).puts == [Body(Some(if s.isOn then 0 else 1), None, None)]
  {
    FirstChar("toggle");
    FoundIsCommand(t, "toggle");
    DirectCommand(t, s, "toggle", scene, device);
  }

  /** `toggle` through the command line sends `on` = 1 exactly when the light was off. */
  lemma ElgatoToggle(s: Light, scene: Option<string>, device: Device)
    ensures WellFormed(ElgatoClass)
    ensures Execute(ElgatoClass, s, "toggle", scene, device).status == 0
    ensures Execute(ElgatoClass, s, "toggle", scene, device).puts == [Body(Some(if s.isOn then 0 else 1), None, None)]
  {
    ElgatoWellFormed();
    ElgatoFindToggle();
    ToggleCommand(ElgatoClass, s, scene, device);
  }

  /** "scene" without a scene name: usage, status 1, no PUT. */
  lemma ElgatoSceneMissing(s: Light, device: Device)
    ensures WellFormed(ElgatoClass)
    ensures Execute(ElgatoClass, s, "scene", None, device) == Exit(1, [], s)
  {
    ElgatoWellFormed();
  }

  /**
   * A rejected selection (an unlisted scene, or an unlisted command) exits
   * with status 1 having sent nothing and changed nothing.
   */
  lemma RejectedSendsNothing(t: seq<Attr>, s: Light, command: string, scene: Option<string>, device: Device)
    requires WellFormed(t)
    requires if command == SceneCommand then scene.None? || scene.value !in Scenes(t)
             else command !in Commands(t)
    ensures Execute(t, s, command, scene, device) == Exit(1, [], s)
  {
  }

  /** "scene" with a name the scene list does not hold: usage, status 1, no PUT. */
  lemma UnlistedSceneRejected(t: seq<Attr>, s: Light, name: string, device: Device)
    requires WellFormed(t)
    requires name !in Scenes(t)
    ensures Execute(t, s, SceneCommand, Some(name), device) == Exit(1, [], s)
  {
    RejectedSendsNothing(t, s, SceneCommand, Some(name), device);
  }

  /** "scene" with a name that is not one of the two scenes: usage, status 1, no PUT. */
  lemma ElgatoSceneUnknown(s: Light, name: string, device: Device)
    requires name != "daytime" && name != "evening"
    ensures WellFormed(ElgatoClass)
    ensures Execute(ElgatoClass, s, "scene", Some(name), device) == Exit(1, [], s)
  {
    ElgatoWellFormed();
    ElgatoScenes();
    UnlistedSceneRejected(ElgatoClass, s, name, device);
  }

  /** A command outside the client's command list: usage, status 1, no PUT. */
  lemma ElgatoCommandUnknown(s: Light, command: string, scene: Option<string>, device: Device)
    requires command !in ElgatoCommandList
    ensures WellFormed(ElgatoClass)
    ensures Execute(ElgatoClass, s, command, scene, device) == Exit(1, [], s)
  {
    ElgatoWellFormed();
    ElgatoCommandsUnlisted(command);
    RejectedSendsNothing(ElgatoClass, s, command, scene, device);
  }

  /**
   * The whole program at `address`: construction, whose GET the device
   * answers with `first`, then one invocation on the connected client.
   */
  function Invocation(t: seq<Attr>, address: string, first: Response, command: string,
                      scene: Option<string>, device: Device): (r: Exit)
    requires WellFormed(t)
    ensures r.status == 0 || r.status == UsageStatus
    ensures r.final.address == address
    ensures r.status == UsageStatus ==> r.puts == [] && r.final == Connect(address, first)
    ensures command == SceneCommand && r.status == 0 ==>
              && |r.puts| == 2
              && Fields(r.puts[0]) == {TemperatureField, BrightnessField}
              && r.puts[1] == PowerBody(true)
    ensures command != SceneCommand && r.status == 0 ==> |r.puts| <= 1
  {
    Execute(t, Connect(address, first), command, scene, device)
  }

  /**
   * `toggle` acts on the state fetched at construction: it sends 1 exactly
   * when the first light's `on` is falsy, a missing `on` reading as false.
   */
  lemma ToggleReadsFirstReply(t: seq<Attr>, address: string, e: Entry, rest: seq<Entry>,
                              scene: Option<string>, device: Device)
    requires WellFormed(t)
    requires Find(t, "toggle") == Some(Toggle)
    ensures Invocation(t, address, Response(Some([e] + rest)), "toggle", scene, device).puts
            == [Body(Some(if Truthy(e.on.GetOr(OnBool(false))) then 0 else 1), None, None)]
  {
    var s := Connect(address, Response(Some([e] + rest)));
    assert s.isOn == Truthy(e.on.GetOr(OnBool(false)));
    ToggleCommand(t, s, scene, device);
  }

  /** With no light in the construction reply, the light reads as off and `toggle` sends 1. */
  lemma ToggleAfterEmptyReply(t: seq<Attr>, address: string, first: Response,
                              scene: Option<string>, device: Device)
    requires WellFormed(t)
    requires Find(t, "toggle") == Some(Toggle)
    requires |LightsOf(first)| == 0
    ensures Invocation(t, address, first, "toggle", scene, device).puts == [Body(Some(1), None, None)]
  {
    ToggleCommand(t, Connect(address, first), scene, device);
  }

  /**
   * A device that does what each body asks and reports the result: the
   * reference against which the relative adjustments are inverses.
   */
  function Echo(s: Light, b: Body): Response {
    Report(Apply(s, b))
  }

  /** Against an idealised device, `toggle` twice restores the light. */
  lemma ToggleTwiceRestores(s: Light)
    ensures Run(s, [Toggle, Toggle], Echo).final == s
    ensures Run(s, [Toggle], Echo).final == s.(isOn := !s.isOn)
  {
    var s1 := Refresh(s, Echo(s, PowerBody(!s.isOn)));
    RefreshFromReport(s, s.(isOn := !s.isOn));
    assert [Toggle, Toggle][1..] == [Toggle];
    RunSingle(s, Toggle, Echo);
    RunSingle(s1, Toggle, Echo);
    RefreshFromReport(s1, s);
  }

  /** Against an idealised device, `brighter` then `dimmer` restores the light. */
  lemma BrighterThenDimmerRestores(s: Light)
    ensures Run(s, [Brighter, Dimmer], Echo).final == s
  {
    var s1 := s.(brightness := s.brightness + 10);
    RefreshFromReport(s, s1);
    assert [Brighter, Dimmer][1..] == [Dimmer];
    RunSingle(s1, Dimmer, Echo);
    RefreshFromReport(s1, s);
  }

  /** Against an idealised device, `warmer` then `cooler` restores the light. */
  lemma WarmerThenCoolerRestores(s: Light)
    ensures Run(s, [Warmer, Cooler], Echo).final == s
  {
    var s1 := s.(temperature := s.temperature + 10);
    RefreshFromReport(s, s1);
    assert [Warmer, Cooler][1..] == [Cooler];
    RunSingle(s1, Cooler, Echo);
    RefreshFromReport(s1, s);
  }

  /** Against an idealised device, a scene leaves the light on at the preset pair. */
  lemma SceneLeavesLightOn(s: Light, temperature: int, brightness: int)
    ensures Run(s, [ApplyScene(temperature, brightness), On], Echo).final
            == s.(temperature := temperature, brightness := brightness, isOn := true)
  {
    var b := SceneBody(temperature, brightness);
    var s1 := s.(temperature := temperature, brightness := brightness);
    assert PutBody(s, ApplyScene(temperature, brightness)) == Some(b);
    assert Apply(s, b) == s1;
    RefreshFromReport(s, s1);
    RunSingle(s1, On, Echo);
    RefreshFromReport(s1, s1.(isOn := true));
    var rest := Run(s1, [On], Echo);
    assert rest.final == s1.(isOn := true);
    assert [ApplyScene(temperature, brightness), On][1..] == [On];
    assert Run(s, [ApplyScene(temperature, brightness), On], Echo) == Trace([b] + rest.puts, rest.final);
  }

}

=== FILE: light_state.dfy ===
/**
 * The client's cached view of one light and the state refresh that
 * overwrites it from the device's `GET /elgato/lights` reply.
 */
module LightState {
  import opened Wrappers

  /**
   * The attributes of an `ElgatoLight` instance. The refresh GET goes to
   * `address`, while every PUT goes to the module-level address read from
   * the environment; the two coincide for the one instance the command line
   * creates, so the model keeps a single address.
   */
  datatype Light = Light(address: string, brightness: int, temperature: int, isOn: bool)

  /** The device reports `on` either as a JSON boolean or as an integer. */
  datatype OnValue = OnBool(b: bool) | OnInt(i: int)

  /** Python truthiness, as `bool(...)` applies it to the reported value. */
  predicate Truthy(v: OnValue) {
    match v
    case OnBool(b) => b
    case OnInt(i) => i != 0
  }

  /** One element of the reply's `lights` list; a missing key is `None`. */
  datatype Entry = Entry(brightness: Option<int>, temperature: Option<int>, on: Option<OnValue>)

  /** A decoded GET reply; `lights` is `None` when the key is missing. */
  datatype Response = Response(lights: Option<seq<Entry>>)

  /** The class-level defaults every instance starts from. */
  function Default(address: string): Light {
    Light(address, 0, 0, false)
  }

  /** The light list as the client reads it: a missing key reads as the empty list. */
  function LightsOf(resp: Response): seq<Entry> {
    resp.lights.GetOr([])
  }

  /**
   * The state refresh. With no light in the reply nothing changes; otherwise
   * the three fields are taken from the first light, missing ones reading as
   * 0, 0 and false.
   */
  function Refresh(s: Light, resp: Response): (r: Light)
    ensures r.address == s.address
    ensures |LightsOf(resp)| == 0 ==> r == s
    ensures |LightsOf(resp)| > 0 ==>
              && r.brightness == (if LightsOf(resp)[0].brightness.Some? then LightsOf(resp)[0].brightness.value else 0)
              && r.temperature == (if LightsOf(resp)[0].temperature.Some? then LightsOf(resp)[0].temperature.value else 0)
              && (r.isOn <==> LightsOf(resp)[0].on.Some? && Truthy(LightsOf(resp)[0].on.value))
  {
    var lights := LightsOf(resp);
    if |lights| <= 0 then s
    else
      var e := lights[0];
      s.(brightness := e.brightness.GetOr(0),
         temperature := e.temperature.GetOr(0),
         isOn := Truthy(e.on.GetOr(OnBool(false))))
  }

  /** Construction: the defaults, refreshed by the first GET. */
  function Connect(address: string, resp: Response): (r: Light)
    ensures r.address == address
    ensures |LightsOf(resp)| == 0 ==> r == Default(address)
  {
    Refresh(Default(address), resp)
  }

  /** A reply that reports exactly the given state as the only light. */
  function Report(s: Light): Response {
    Response(Some([Entry(Some(s.brightness), Some(s.temperature), Some(OnBool(s.isOn)))]))
  }

  /** A faithful report is read back exactly, whatever the client held before. */
  lemma RefreshFromReport(prior: Light, s: Light)
    requires prior.address == s.address
    ensures Refresh(prior, Report(s)) == s
  {
  }

  /** Once at least one light is reported, the previous cached values play no part. */
  lemma RefreshForgetsPrior(s1: Light, s2: Light, resp: Response)
    requires s1.address == s2.address
    requires |LightsOf(resp)| > 0
    ensures Refresh(s1, resp) == Refresh(s2, resp)
  {
  }

  /** Only the first light counts: further entries are ignored. */
  lemma RefreshReadsFirstOnly(s: Light, e: Entry, rest: seq<Entry>)
    ensures Refresh(s, Response(Some([e] + rest))) == Refresh(s, Response(Some([e])))
  {
  }

  /** A first light with no fields at all reads as brightness 0, temperature 0, off. */
  lemma RefreshDefaults(s: Light, rest: seq<Entry>)
    ensures Refresh(s, Response(Some([Entry(None, None, None)] + rest))) == Default(s.address)
  {
  }

  /** Refreshing twice from the same reply is the same as refreshing once. */
  lemma RefreshIdempotent(s: Light, resp: Response)
    ensures Refresh(Refresh(s, resp), resp) == Refresh(s, resp)
  {
  }

  /** An integer `on` counts as on exactly when it is non-zero. */
  lemma RefreshIntegerOn(s: Light, i: int)
    ensures Refresh(s, Response(Some([Entry(None, None, Some(OnInt(i)))]))).isOn <==> i != 0
  {
  }
}

=== FILE: requests.dfy ===
/**
 * The body of the single PUT each action sends: the object that becomes
 * `lights[0]` of `{"lights": [...]}`.
 */
module Requests {
  import opened Wrappers
  import opened LightState

  /** The fields a body may carry; an absent field is `None`. */
  datatype Body = Body(on: Option<int>, brightness: Option<int>, temperature: Option<int>)

  datatype Field = OnField | BrightnessField | TemperatureField

  /** The set of fields present in a body. */
  function Fields(b: Body): set<Field> {
    (if b.on.Some? then {OnField} else {})
    + (if b.brightness.Some? then {BrightnessField} else {})
    + (if b.temperature.Some? then {TemperatureField} else {})
  }

  /**
   * The zero-argument public methods of the client. Scenes carry their
   * preset; `ListCommands` and `ListScenes` are the two listing methods,
   * which are public and callable and so also reachable as commands.
   */
  datatype Action =
    | On | Off | Toggle
    | Bright | Brighter | Dim | Dimmer
    | Warm | Cool | Warmer | Cooler
    | ApplyScene(temperature: int, brightness: int)
    | ListCommands | ListScenes

  const BrightLevel: int := 50
  const DimLevel: int := 30
  const WarmTemperature: int := 272
  const CoolTemperature: int := 200
  /** The relative adjustment step; nothing clamps the result. */
  const Step: int := 10

  const Evening: Action := ApplyScene(272, 30)
  const Daytime: Action := ApplyScene(200, 50)

  /** An action that talks to the device (every one but the two listings). */
  predicate Puts(a: Action) {
    !(a.ListCommands? || a.ListScenes?)
  }

  /** Reference table: the fields each action is meant to govern. */
  function Governs(a: Action): set<Field> {
    match a
    case On | Off | Toggle => {OnField}
    case Bright | Brighter | Dim | Dimmer => {BrightnessField}
    case Warm | Cool | Warmer | Cooler => {TemperatureField}
    case ApplyScene(_, _) => {TemperatureField, BrightnessField}
    case ListCommands | ListScenes => {}
  }

  /** The power body; the flag is sent as the integer `int(on)`. */
  function PowerBody(on: bool): (r: Body)
    ensures Fields(r) == {OnField}
    ensures r.on.value == 1 <==> on
    ensures r.on.value == 0 <==> !on
  {
    Body(Some(if on then 1 else 0), None, None)
  }

  function BrightnessBody(brightness: int): (r: Body)
    ensures Fields(r) == {BrightnessField}
    ensures r.brightness == Some(brightness)
  {
    Body(None, Some(brightness), None)
  }

  function TemperatureBody(temperature: int): (r: Body)
    ensures Fields(r) == {TemperatureField}
    ensures r.temperature == Some(temperature)
  {
    Body(None, None, Some(temperature))
  }

  /** A scene sets temperature and brightness together, in one request. */
  function SceneBody(temperature: int, brightness: int): (r: Body)
    ensures Fields(r) == {TemperatureField, BrightnessField}
    ensures r.temperature == Some(temperature) && r.brightness == Some(brightness)
  {
    Body(None, Some(brightness), Some(temperature))
  }

  /**
   * The body an action sends from the cached state `s`, or `None` for the
   * listing methods, which send nothing. Every body holds exactly the
   * fields its action governs.
   */
  function PutBody(s: Light, a: Action): (r: Option<Body>)
    ensures r.Some? <==> Puts(a)
    ensures r.Some? ==> Fields(r.value) == Governs(a)
  {
    match a
    case On => Some(PowerBody(true))
    case Off => Some(PowerBody(false))
    case Toggle => Some(PowerBody(!s.isOn))
    case Bright => Some(BrightnessBody(BrightLevel))
    case Brighter => Some(BrightnessBody(s.brightness + Step))
    case Dim => Some(BrightnessBody(DimLevel))
    case Dimmer => Some(BrightnessBody(s.brightness - Step))
    case Warm => Some(TemperatureBody(WarmTemperature))
    case Cool => Some(TemperatureBody(CoolTemperature))
    case Warmer => Some(TemperatureBody(s.temperature + Step))
    case Cooler => Some(TemperatureBody(s.temperature - Step))
    case ApplyScene(t, b) => Some(SceneBody(t, b))
    case ListCommands => None
    case ListScenes => None
  }

  /** `toggle` sends 1 exactly when the light is cached as off, else 0. */
  lemma ToggleNegates(s: Light)
    ensures PutBody(s, Toggle) == Some(PowerBody(!s.isOn))
    ensures PutBody(s, Toggle).value.on == Some(1) <==> !s.isOn
    ensures PutBody(s, Toggle).value.on == Some(0) <==> s.isOn
  {
  }

  /** `on` and `off` ignore the cached state. */
  lemma PowerIsAbsolute(s1: Light, s2: Light)
    ensures PutBody(s1, On) == PutBody(s2, On) == Some(Body(Some(1), None, None))
    ensures PutBody(s1, Off) == PutBody(s2, Off) == Some(Body(Some(0), None, None))
  {
  }

  /** The absolute levels: bright 50, dim 30, warm 272, cool 200, whatever the state. */
  lemma AbsoluteLevels(s: Light)
    ensures PutBody(s, Bright).value.brightness == Some(50)
    ensures PutBody(s, Dim).value.brightness == Some(30)
    ensures PutBody(s, Warm).value.temperature == Some(272)
    ensures PutBody(s, Cool).value.temperature == Some(200)
  {
  }

  /** The relative adjustments move the cached value by exactly ten either way. */
  lemma RelativeSteps(s: Light)
    ensures PutBody(s, Brighter).value.brightness == Some(s.brightness + 10)
    ensures PutBody(s, Dimmer).value.brightness == Some(s.brightness - 10)
    ensures PutBody(s, Warmer).value.temperature == Some(s.temperature + 10)
    ensures PutBody(s, Cooler).value.temperature == Some(s.temperature - 10)
  {
  }

  /** Nothing clamps: a full-brightness light is asked for 110, a dark one for -10. */
  lemma NoClamping(address: string)
    ensures PutBody(Light(address, 100, 0, true), Brighter).value.brightness == Some(110)
    ensures PutBody(Light(address, 0, 0, true), Dimmer).value.brightness == Some(-10)
  {
  }

  /** The built-in presets: evening (272, 30) and daytime (200, 50), both in one body. */
  lemma ScenePresets(s: Light)
    ensures PutBody(s, Evening) == Some(Body(None, Some(30), Some(272)))
    ensures PutBody(s, Daytime) == Some(Body(None, Some(50), Some(200)))
  {
  }

  /**
   * An idealised device's reaction to a PUT: each field present in the
   * body overwrites the corresponding setting, a non-zero `on` meaning on.
   */
  function Apply(s: Light, b: Body): Light {
    s.(isOn := if b.on.Some? then b.on.value != 0 else s.isOn,
       brightness := b.brightness.GetOr(s.brightness),
       temperature := b.temperature.GetOr(s.temperature))
  }

  /**
   * Applied by the device, an action changes exactly the settings it governs:
   * every other setting, and the address, stay as they were.
   */
  lemma ApplyTouchesOnlyGoverned(s: Light, a: Action)
    requires Puts(a)
    ensures Apply(s, PutBody(s, a).value).address == s.address
    ensures OnField !in Governs(a) ==> Apply(s, PutBody(s, a).value).isOn == s.isOn
    ensures BrightnessField !in Governs(a) ==> Apply(s, PutBody(s, a).value).brightness == s.brightness
    ensures TemperatureField !in Governs(a) ==> Apply(s, PutBody(s, a).value).temperature == s.temperature
  {
  }

  /** Applied by the device, `toggle` inverts the power state. */
  lemma ApplyToggleInverts(s: Light)
    ensures Apply(s, PutBody(s, Toggle).value) == s.(isOn := !s.isOn)
  {
  }
}

=== FILE: surface.dfy ===
/**
 * The command surface: which names the client offers as commands and as
 * scenes. The client derives both lists by introspecting its own class;
 * here the class is a static attribute table in the order `dir()` lists it.
 */
module Surface {
  import opened Wrappers
  import opened Requests

  const ScenePrefix: string := "scene_"
  const PrivatePrefix: string := "_"
  /** The pseudo-command that selects a scene through the second argument. */
  const SceneCommand: string := "scene"

  /** Python's `str.startswith`. */
  predicate HasPrefix(s: string, p: string) {
    |p| <= |s| && s[..|p|] == p
  }

  /** Both prefixes in use are decided by a name's first character, "scene_" only negatively. */
  lemma FirstChar(s: string)
    requires |s| > 0
    ensures HasPrefix(s, PrivatePrefix) <==> s[0] == '_'
    ensures s[0] != 's' ==> !HasPrefix(s, ScenePrefix)
  {
    if HasPrefix(s, ScenePrefix) {
      assert s[0] == s[..|ScenePrefix|][0];
    }
  }

  /** A prefixed name is the prefix followed by what remains after it. */
  lemma PrefixSplits(s: string, p: string)
    requires HasPrefix(s, p)
    ensures s == p + s[|p|..]
  {
    assert s == s[..|p|] + s[|p|..];
  }

  /** No name starts with both "_" and "scene_". */
  lemma PrefixesExclusive(n: string)
    ensures !(HasPrefix(n, PrivatePrefix) && HasPrefix(n, ScenePrefix))
  {
    if |n| > 0 {
      FirstChar(n);
    }
  }

  /**
   * What a class attribute is: plain data (not callable), an internal
   * callable that is not a zero-argument action (dunders, `_`-helpers), or
   * a public zero-argument action.
   */
  datatype Kind = Data | Internal | Public(action: Action)

  datatype Attr = Attr(name: string, kind: Kind)

  predicate Callable(a: Attr) {
    !a.kind.Data?
  }

  /** The filter of `get_commands`: callable, not `_`-prefixed, not `scene_`-prefixed. */
  predicate IsCommandAttr(a: Attr) {
    Callable(a) && !HasPrefix(a.name, PrivatePrefix) && !HasPrefix(a.name, ScenePrefix)
  }

  /** The filter of `get_scenes`: callable and `scene_`-prefixed. */
  predicate IsSceneAttr(a: Attr) {
    Callable(a) && HasPrefix(a.name, ScenePrefix)
  }

  /** The names kept by the command filter, in table order. */
  function CommandNames(t: seq<Attr>): (r: seq<string>)
    ensures |r| <= |t|
  {
    if |t| == 0 then []
    else (if IsCommandAttr(t[0]) then [t[0].name] else []) + CommandNames(t[1..])
  }

  /** The command filter keeps exactly the names of the command attributes. */
  lemma {:induction false} CommandNamesMembers(t: seq<Attr>)
    ensures forall n :: n in CommandNames(t) <==> exists a :: a in t && IsCommandAttr(a) && a.name == n
    decreases |t|
  {
    if |t| > 0 {
      CommandNamesMembers(t[1..]);
      assert forall a :: a in t <==> a == t[0] || a in t[1..];
    }
  }

  /**
   * `get_commands`: the filtered names followed by the literal "scene". No
   * command starts with "scene_" or with "_", "scene" included.
   */
  function Commands(t: seq<Attr>): (r: seq<string>)
    ensures |r| >= 1 && r[|r| - 1] == SceneCommand
    ensures forall n :: n in r <==> n == SceneCommand || exists a :: a in t && IsCommandAttr(a) && a.name == n
    ensures forall i :: 0 <= i < |r| ==> !HasPrefix(r[i], ScenePrefix) && !HasPrefix(r[i], PrivatePrefix)
  {
    CommandNamesMembers(t);
    FirstChar(SceneCommand);
    var names := CommandNames(t);
    assert forall i :: 0 <= i < |names| ==> names[i] in names;
    names + [SceneCommand]
  }

  /** The scene filter and prefix strip, in table order. */
  function SceneNames(t: seq<Attr>): (r: seq<string>)
    ensures |r| <= |t|
  {
    if |t| == 0 then []
    else (if IsSceneAttr(t[0]) then [t[0].name[|ScenePrefix|..]] else []) + SceneNames(t[1..])
  }

  /** A name is kept exactly when "scene_" followed by it names a scene attribute. */
  lemma {:induction false} SceneNamesMembers(t: seq<Attr>)
    ensures forall s :: s in SceneNames(t) <==> exists a :: a in t && IsSceneAttr(a) && a.name == ScenePrefix + s
    decreases |t|
  {
    if |t| > 0 {
      SceneNamesMembers(t[1..]);
      assert forall a :: a in t <==> a == t[0] || a in t[1..];
      if IsSceneAttr(t[0]) {
        PrefixSplits(t[0].name, ScenePrefix);
      }
    }
  }

  /**
   * `get_scenes`: every callable `scene_`-prefixed name with its first six
   * characters removed. A name is listed exactly when "scene_" followed by
   * it names a callable attribute.
   */
  function Scenes(t: seq<Attr>): (r: seq<string>)
    ensures |r| <= |t|
    ensures forall s :: s in r <==> exists a :: a in t && IsSceneAttr(a) && a.name == ScenePrefix + s
  {
    SceneNamesMembers(t);
    SceneNames(t)
  }

  /**
   * `getattr(light, name)` for a zero-argument action: the action of the
   * first public attribute of that name, or `None` when there is none. A
   * result is always the action of a public attribute of that name, and
   * the lookup fails only when no such attribute exists.
   */
  function Find(t: seq<Attr>, name: string): (r: Option<Action>)
    ensures r.Some? ==> Attr(name, Public(r.value)) in t
    ensures (exists x :: Attr(name, Public(x)) in t) ==> r.Some?
  {
    if |t| == 0 then None
    else if t[0].name == name && t[0].kind.Public? then Some(t[0].kind.action)
    else
      assert forall x :: Attr(name, Public(x)) in t ==> Attr(name, Public(x)) in t[1..];
      Find(t[1..], name)
  }

  /** Looking a name up in a joined table searches the first part, then the second. */
  lemma {:induction false} FindAppend(t: seq<Attr>, u: seq<Attr>, name: string)
    ensures Find(t + u, name) == if Find(t, name).Some? then Find(t, name) else Find(u, name)
    decreases |t|
  {
    if |t| == 0 {
      assert t + u == u;
    } else {
      assert (t + u)[0] == t[0];
      assert (t + u)[1..] == t[1..] + u;
      FindAppend(t[1..], u, name);
    }
  }

  /**
   * What the client class guarantees of itself: every callable attribute
   * without a leading underscore is a zero-argument action, and exactly
   * the `scene_`-prefixed ones apply a scene.
   */
  ghost predicate WellFormed(t: seq<Attr>) {
    && (forall a :: a in t && Callable(a) && !HasPrefix(a.name, PrivatePrefix) ==> a.kind.Public?)
    && (forall a :: a in t && a.kind.Public? ==> (a.kind.action.ApplyScene? <==> HasPrefix(a.name, ScenePrefix)))
  }

  /** Apart from "scene" itself, no command coincides with a `scene_` method. */
  lemma CommandsAvoidScenes(t: seq<Attr>, c: string, s: string)
    requires c in Commands(t)
    ensures c != ScenePrefix + s
  {
    var r := Commands(t);
    var i :| 0 <= i < |r| && r[i] == c;
    assert (ScenePrefix + s)[..|ScenePrefix|] == ScenePrefix;
  }

  /**
   * Every listed scene can be dispatched: "scene_" + name resolves to a
   * scene action that the table really holds under that name.
   */
  lemma SceneIsDispatchable(t: seq<Attr>, s: string)
    requires WellFormed(t)
    requires s in Scenes(t)
    ensures Find(t, ScenePrefix + s).Some?
    ensures Attr(ScenePrefix + s, Public(Find(t, ScenePrefix + s).value)) in t
    ensures Find(t, ScenePrefix + s).value.ApplyScene?
  {
    var a :| a in t && IsSceneAttr(a) && a.name == ScenePrefix + s;
    PrefixesExclusive(a.name);
  }

  /**
   * Every listed command other than "scene" resolves to a non-scene action
   * that the table really holds under that name.
   */
  lemma CommandIsDispatchable(t: seq<Attr>, c: string)
    requires WellFormed(t)
    requires c in Commands(t) && c != SceneCommand
    ensures Find(t, c).Some?
    ensures Attr(c, Public(Find(t, c).value)) in t
    ensures !Find(t, c).value.ApplyScene?
  {
    var a :| a in t && IsCommandAttr(a) && a.name == c;
  }

  /** A public action found under a name with neither prefix is listed as a command. */
  lemma FoundIsCommand(t: seq<Attr>, c: string)
    requires Find(t, c).Some?
    requires !HasPrefix(c, PrivatePrefix) && !HasPrefix(c, ScenePrefix)
    ensures c in Commands(t)
  {
    assert IsCommandAttr(Attr(c, Public(Find(t, c).value)));
  }

  lemma {:induction false} CommandNamesAppend(t: seq<Attr>, u: seq<Attr>)
    ensures CommandNames(t + u) == CommandNames(t) + CommandNames(u)
    decreases |t|
  {
    if |t| == 0 {
      assert t + u == u;
    } else {
      assert (t + u)[0] == t[0];
      assert (t + u)[1..] == t[1..] + u;
      CommandNamesAppend(t[1..], u);
      assert CommandNames(t) == CommandNames([t[0]]) + CommandNames(t[1..]);
    }
  }

  lemma {:induction false} SceneNamesAppend(t: seq<Attr>, u: seq<Attr>)
    ensures SceneNames(t + u) == SceneNames(t) + SceneNames(u)
    decreases |t|
  {
    if |t| == 0 {
      assert t + u == u;
    } else {
      assert (t + u)[0] == t[0];
      assert (t + u)[1..] == t[1..] + u;
      SceneNamesAppend(t[1..], u);
      assert SceneNames(t) == SceneNames([t[0]]) + SceneNames(t[1..]);
    }
  }

  /** Both lists of a one-attribute table. */
  lemma SingleAttr(a: Attr)
    ensures CommandNames([a]) == if IsCommandAttr(a) then [a.name] else []
    ensures SceneNames([a]) == if IsSceneAttr(a) then [a.name[|ScenePrefix|..]] else []
  {
    assert [a][1..] == [];
  }

  /** Both lists of a table with one attribute inserted, split around it. */
  lemma InsertAttr(t: seq<Attr>, a: Attr, u: seq<Attr>)
    ensures CommandNames(t + [a] + u) == CommandNames(t) + CommandNames([a]) + CommandNames(u)
    ensures SceneNames(t + [a] + u) == SceneNames(t) + SceneNames([a]) + SceneNames(u)
  {
    CommandNamesAppend(t + [a], u);
    CommandNamesAppend(t, [a]);
    SceneNamesAppend(t + [a], u);
    SceneNamesAppend(t, [a]);
  }

  /**
   * Adding a `scene_` method anywhere in the class surfaces its name as a
   * scene, in place, and leaves the command list as it was: no dispatch
   * logic has to change.
   */
  lemma AddedSceneSurfaces(t: seq<Attr>, u: seq<Attr>, name: string, temperature: int, brightness: int)
    ensures Commands(t + [Attr(ScenePrefix + name, Public(ApplyScene(temperature, brightness)))] + u)
            == Commands(t + u)
    ensures Scenes(t + [Attr(ScenePrefix + name, Public(ApplyScene(temperature, brightness)))] + u)
            == Scenes(t) + [name] + Scenes(u)
  {
    SceneAttrShape(name, temperature, brightness);
    InsertSceneAttr(t, u, Attr(ScenePrefix + name, Public(ApplyScene(temperature, brightness))));
  }

  lemma InsertSceneAttr(t: seq<Attr>, u: seq<Attr>, a: Attr)
    requires !IsCommandAttr(a) && IsSceneAttr(a)
    ensures CommandNames(t + [a] + u) == CommandNames(t + u)
    ensures SceneNames(t + [a] + u) == SceneNames(t) + [a.name[|ScenePrefix|..]] + SceneNames(u)
  {
    SingleAttr(a);
    InsertAttr(t, a, u);
    CommandNamesAppend(t, u);
  }

  /** A `scene_` method is a scene attribute and not a command attribute. */
  lemma SceneAttrShape(name: string, temperature: int, brightness: int)
    ensures !IsCommandAttr(Attr(ScenePrefix + name, Public(ApplyScene(temperature, brightness))))
    ensures IsSceneAttr(Attr(ScenePrefix + name, Public(ApplyScene(temperature, brightness))))
    ensures (ScenePrefix + name)[|ScenePrefix|..] == name
  {
    assert (ScenePrefix + name)[..|ScenePrefix|] == ScenePrefix;
  }

  /**
   * Attributes whose names start with "_" (the dunders, whose set varies
   * between Python versions, and the private helpers) can never change
   * either list.
   */
  lemma UnderscoreIgnored(t: seq<Attr>, u: seq<Attr>, a: Attr)
    requires HasPrefix(a.name, PrivatePrefix)
    ensures Commands(t + [a] + u) == Commands(t + u)
    ensures Scenes(t + [a] + u) == Scenes(t + u)
  {
    PrefixesExclusive(a.name);
    InsertIgnoredAttr(t, u, a);
  }

  /** An attribute that is neither a command nor a scene leaves both lists as they were. */
  lemma InsertIgnoredAttr(t: seq<Attr>, u: seq<Attr>, a: Attr)
    requires !IsCommandAttr(a) && !IsSceneAttr(a)
    ensures CommandNames(t + [a] + u) == CommandNames(t + u)
    ensures SceneNames(t + [a] + u) == SceneNames(t + u)
  {
    SingleAttr(a);
    InsertAttr(t, a, u);
    CommandNamesAppend(t, u);
    SceneNamesAppend(t, u);
  }

  /** The names of a table's callable attributes, in order. */
  function CallableNames(t: seq<Attr>): (r: seq<string>)
    ensures |r| <= |t|
  {
    if |t| == 0 then []
    else (if Callable(t[0]) then [t[0].name] else []) + CallableNames(t[1..])
  }

  /**
   * A run of data attributes and public non-scene actions whose names
   * start with neither "_" nor "s".
   */
  ghost predicate PlainRun(t: seq<Attr>) {
    forall i :: 0 <= i < |t| ==>
      && |t[i].name| > 0 && t[i].name[0] != '_' && t[i].name[0] != 's'
      && !t[i].kind.Internal? && (t[i].kind.Public? ==> !t[i].kind.action.ApplyScene?)
  }

  /** Every callable name of a plain run is a command, none a scene, and the run is well formed. */
  lemma {:induction false} PlainRunLists(t: seq<Attr>)
    requires PlainRun(t)
    ensures CommandNames(t) == CallableNames(t)
    ensures SceneNames(t) == []
    ensures WellFormed(t)
    decreases |t|
  {
    if |t| > 0 {
      assert PlainRun(t[1..]) by {
        forall i | 0 <= i < |t[1..]| ensures t[1..][i] == t[i + 1] {}
      }
      PlainRunLists(t[1..]);
      FirstChar(t[0].name);
      forall a | a in t
        ensures !HasPrefix(a.name, PrivatePrefix) && !HasPrefix(a.name, ScenePrefix)
      {
        var i :| 0 <= i < |t| && t[i] == a;
        FirstChar(a.name);
      }
    }
  }

  /** A run of attributes that are not public actions and whose names start with "_". */
  ghost predicate PrivateRun(t: seq<Attr>) {
    forall i :: 0 <= i < |t| ==> |t[i].name| > 0 && t[i].name[0] == '_' && !t[i].kind.Public?
  }

  /** A private run adds nothing to either list and is well formed. */
  lemma {:induction false} PrivateRunLists(t: seq<Attr>)
    requires PrivateRun(t)
    ensures CommandNames(t) == []
    ensures SceneNames(t) == []
    ensures WellFormed(t)
    decreases |t|
  {
    if |t| > 0 {
      assert PrivateRun(t[1..]) by {
        forall i | 0 <= i < |t[1..]| ensures t[1..][i] == t[i + 1] {}
      }
      PrivateRunLists(t[1..]);
      FirstChar(t[0].name);
      forall a | a in t ensures HasPrefix(a.name, PrivatePrefix) {
        var i :| 0 <= i < |t| && t[i] == a;
        FirstChar(a.name);
      }
    }
  }

  /**
   * The attributes of the client class as `dir()` lists them (sorted),
   * written as consecutive runs. First the dunder attributes, some the
   * class's own (`__dict__`, `__doc__`, `__module__`) and some inherited
   * from `object`: only a representative few, since by `UnderscoreIgnored`
   * the rest cannot matter.
   */
  const DunderAttrs: seq<Attr> := [
    Attr("__class__", Internal),
    Attr("__dict__", Data),
    Attr("__doc__", Data),
    Attr("__init__", Internal),
    Attr("__module__", Data)
  ]

  /** The client's private helpers, which take arguments. */
  const HelperAttrs: seq<Attr> := [
    Attr("_power", Internal),
    Attr("_set_brightness", Internal),
    Attr("_set_scene", Internal),
    Attr("_set_temperature", Internal),
    Attr("_update", Internal)
  ]

  /** From "bright" to "cooler"; the state fields are plain data. */
  const AttrsBrightToCooler: seq<Attr> := [
    Attr("bright", Public(Bright)),
    Attr("brighter", Public(Brighter)),
    Attr("brightness", Data),
    Attr("cool", Public(Cool)),
    Attr("cooler", Public(Cooler))
  ]

  /** From "dim" to "ip_address", including the two listing methods. */
  const AttrsDimToIpAddress: seq<Attr> := [
    Attr("dim", Public(Dim)),
    Attr("dimmer", Public(Dimmer)),
    Attr("get_commands", Public(ListCommands)),
    Attr("get_scenes", Public(ListScenes)),
    Attr("ip_address", Data)
  ]

  const AttrsIsOnToOn: seq<Attr> := [
    Attr("is_on", Data),
    Attr("off", Public(Off)),
    Attr("on", Public(On))
  ]

  /** The two built-in scenes. */
  const SceneAttrs: seq<Attr> := [
    Attr("scene_daytime", Public(Daytime)),
    Attr("scene_evening", Public(Evening))
  ]

  const AttrsTemperatureToWarmer: seq<Attr> := [
    Attr("temperature", Data),
    Attr("toggle", Public(Toggle)),
    Attr("warm", Public(Warm)),
    Attr("warmer", Public(Warmer))
  ]

  const ElgatoClass: seq<Attr> :=
    DunderAttrs + HelperAttrs + AttrsBrightToCooler + AttrsDimToIpAddress
    + AttrsIsOnToOn + SceneAttrs + AttrsTemperatureToWarmer

  /*
   * Each run's lists follow from `PrivateRunLists` or `PlainRunLists`. The
   * facts about a run's literal entries (the lemmas ending in `Private`,
   * `Plain` and `Callables`) sit in lemmas of their own, so that the
   * verifier evaluates one literal table at a time.
   */
  lemma DunderAttrsLists()
    ensures CommandNames(DunderAttrs) == [] && SceneNames(DunderAttrs) == []
    ensures WellFormed(DunderAttrs)
  {
    DunderAttrsPrivate();
    PrivateRunLists(DunderAttrs);
  }

  lemma DunderAttrsPrivate()
    ensures PrivateRun(DunderAttrs)
  {
  }

  lemma HelperAttrsLists()
    ensures CommandNames(HelperAttrs) == [] && SceneNames(HelperAttrs) == []
    ensures WellFormed(HelperAttrs)
  {
    HelperAttrsPrivate();
    PrivateRunLists(HelperAttrs);
  }

  lemma HelperAttrsPrivate()
    ensures PrivateRun(HelperAttrs)
  {
  }

  lemma AttrsBrightToCoolerLists()
    ensures CommandNames(AttrsBrightToCooler) == ["bright", "brighter", "cool", "cooler"]
    ensures SceneNames(AttrsBrightToCooler) == []
    ensures WellFormed(AttrsBrightToCooler)
  {
    AttrsBrightToCoolerPlain();
    PlainRunLists(AttrsBrightToCooler);
    AttrsBrightToCoolerCallables();
  }

  lemma AttrsBrightToCoolerPlain()
    ensures PlainRun(AttrsBrightToCooler)
  {
    forall i | 0 <= i < |AttrsBrightToCooler| ensures |AttrsBrightToCooler[i].name| > 0 {}
  }

  lemma AttrsBrightToCoolerCallables()
    ensures CallableNames(AttrsBrightToCooler) == ["bright", "brighter", "cool", "cooler"]
  {
  }

  lemma AttrsDimToIpAddressLists()
    ensures CommandNames(AttrsDimToIpAddress) == ["dim", "dimmer", "get_commands", "get_scenes"]
    ensures SceneNames(AttrsDimToIpAddress) == []
    ensures WellFormed(AttrsDimToIpAddress)
  {
    AttrsDimToIpAddressPlain();
    PlainRunLists(AttrsDimToIpAddress);
    AttrsDimToIpAddressCallables();
  }

  lemma AttrsDimToIpAddressPlain()
    ensures PlainRun(AttrsDimToIpAddress)
  {
    forall i | 0 <= i < |AttrsDimToIpAddress| ensures |AttrsDimToIpAddress[i].name| > 0 {}
  }

  lemma AttrsDimToIpAddressCallables()
    ensures CallableNames(AttrsDimToIpAddress) == ["dim", "dimmer", "get_commands", "get_scenes"]
  {
  }

  lemma AttrsIsOnToOnLists()
    ensures CommandNames(AttrsIsOnToOn) == ["off", "on"]
    ensures SceneNames(AttrsIsOnToOn) == []
    ensures WellFormed(AttrsIsOnToOn)
  {
    AttrsIsOnToOnPlain();
    PlainRunLists(AttrsIsOnToOn);
    AttrsIsOnToOnCallables();
  }

  lemma AttrsIsOnToOnPlain()
    ensures PlainRun(AttrsIsOnToOn)
  {
    forall i | 0 <= i < |AttrsIsOnToOn| ensures |AttrsIsOnToOn[i].name| > 0 {}
  }

  lemma AttrsIsOnToOnCallables()
    ensures CallableNames(AttrsIsOnToOn) == ["off", "on"]
  {
  }

  lemma SceneAttrsLists()
    ensures CommandNames(SceneAttrs) == []
    ensures SceneNames(SceneAttrs) == ["daytime", "evening"]
    ensures WellFormed(SceneAttrs)
  {
    forall a | a in SceneAttrs ensures !HasPrefix(a.name, PrivatePrefix) {
      FirstChar(a.name);
    }
  }

  lemma AttrsTemperatureToWarmerLists()
    ensures CommandNames(AttrsTemperatureToWarmer) == ["toggle", "warm", "warmer"]
    ensures SceneNames(AttrsTemperatureToWarmer) == []
    ensures WellFormed(AttrsTemperatureToWarmer)
  {
    AttrsTemperatureToWarmerPlain();
    PlainRunLists(AttrsTemperatureToWarmer);
    AttrsTemperatureToWarmerCallables();
  }

  lemma AttrsTemperatureToWarmerPlain()
    ensures PlainRun(AttrsTemperatureToWarmer)
  {
    forall i | 0 <= i < |AttrsTemperatureToWarmer| ensures |AttrsTemperatureToWarmer[i].name| > 0 {}
  }

  lemma AttrsTemperatureToWarmerCallables()
    ensures CallableNames(AttrsTemperatureToWarmer) == ["toggle", "warm", "warmer"]
  {
  }

  /**
   * Joins the per-run command lists. The runs are parameters so that the
   * join is argued about the lists alone, not by re-evaluating the table.
   */
  lemma RunsCommandNames(t1: seq<Attr>, t2: seq<Attr>, t3: seq<Attr>, t4: seq<Attr>,
                         t5: seq<Attr>, t6: seq<Attr>, t7: seq<Attr>)
    requires CommandNames(t1) == [] && CommandNames(t2) == []
    requires CommandNames(t3) == ["bright", "brighter", "cool", "cooler"]
    requires CommandNames(t4) == ["dim", "dimmer", "get_commands", "get_scenes"]
    requires CommandNames(t5) == ["off", "on"] && CommandNames(t6) == []
    requires CommandNames(t7) == ["toggle", "warm", "warmer"]
    ensures CommandNames(t1 + t2 + t3 + t4 + t5 + t6 + t7) == [
      "bright", "brighter", "cool", "cooler", "dim", "dimmer",
      "get_commands", "get_scenes", "off", "on", "toggle", "warm", "warmer"]
  {
    CommandNamesAppend(t1, t2);
    CommandNamesAppend(t1 + t2, t3);
    CommandNamesAppend(t1 + t2 + t3, t4);
    CommandNamesAppend(t1 + t2 + t3 + t4, t5);
    CommandNamesAppend(t1 + t2 + t3 + t4 + t5, t6);
    CommandNamesAppend(t1 + t2 + t3 + t4 + t5 + t6, t7);
  }

  /** Joins the per-run scene lists, as `RunsCommandNames` does for commands. */
  lemma RunsSceneNames(t1: seq<Attr>, t2: seq<Attr>, t3: seq<Attr>, t4: seq<Attr>,
                       t5: seq<Attr>, t6: seq<Attr>, t7: seq<Attr>)
    requires SceneNames(t1) == [] && SceneNames(t2) == [] && SceneNames(t3) == []
    requires SceneNames(t4) == [] && SceneNames(t5) == []
    requires SceneNames(t6) == ["daytime", "evening"] && SceneNames(t7) == []
    ensures SceneNames(t1 + t2 + t3 + t4 + t5) == []
    ensures SceneNames(t1 + t2 + t3 + t4 + t5 + t6 + t7) == ["daytime", "evening"]
  {
    SceneNamesAppend(t1, t2);
    SceneNamesAppend(t1 + t2, t3);
    SceneNamesAppend(t1 + t2 + t3, t4);
    SceneNamesAppend(t1 + t2 + t3 + t4, t5);
    SceneNamesAppend(t1 + t2 + t3 + t4 + t5, t6);
    SceneNamesAppend(t1 + t2 + t3 + t4 + t5 + t6, t7);
  }

  /** Every run of the class evaluated on its own. */
  lemma ElgatoRuns()
    ensures CommandNames(DunderAttrs) == [] && SceneNames(DunderAttrs) == [] && WellFormed(DunderAttrs)
    ensures CommandNames(HelperAttrs) == [] && SceneNames(HelperAttrs) == [] && WellFormed(HelperAttrs)
    ensures CommandNames(AttrsBrightToCooler) == ["bright", "brighter", "cool", "cooler"]
    ensures SceneNames(AttrsBrightToCooler) == [] && WellFormed(AttrsBrightToCooler)
    ensures CommandNames(AttrsDimToIpAddress) == ["dim", "dimmer", "get_commands", "get_scenes"]
    ensures SceneNames(AttrsDimToIpAddress) == [] && WellFormed(AttrsDimToIpAddress)
    ensures CommandNames(AttrsIsOnToOn) == ["off", "on"]
    ensures SceneNames(AttrsIsOnToOn) == [] && WellFormed(AttrsIsOnToOn)
    ensures CommandNames(SceneAttrs) == [] && SceneNames(SceneAttrs) == ["daytime", "evening"]
    ensures WellFormed(SceneAttrs)
    ensures CommandNames(AttrsTemperatureToWarmer) == ["toggle", "warm", "warmer"]
    ensures SceneNames(AttrsTemperatureToWarmer) == [] && WellFormed(AttrsTemperatureToWarmer)
  {
    DunderAttrsLists();
    HelperAttrsLists();
    AttrsBrightToCoolerLists();
    AttrsDimToIpAddressLists();
    AttrsIsOnToOnLists();
    SceneAttrsLists();
    AttrsTemperatureToWarmerLists();
  }

  /** The command list the client derives, spelled out. */
  const ElgatoCommandList: seq<string> := [
    "bright", "brighter", "cool", "cooler", "dim", "dimmer",
    "get_commands", "get_scenes", "off", "on", "toggle", "warm", "warmer", "scene"]

  /** Names outside the spelled-out list are not commands of the client. */
  lemma ElgatoCommandsUnlisted(c: string)
    requires c !in ElgatoCommandList
    ensures c !in Commands(ElgatoClass) && c != SceneCommand
  {
    ElgatoCommands();
  }

  /**
   * The client's command list: every public method that is not a scene,
   * the two listing methods among them, in `dir()` order, then "scene".
   */
  lemma ElgatoCommands()
    ensures Commands(ElgatoClass) == ElgatoCommandList
  {
    ElgatoCommandNames();
  }

  lemma ElgatoCommandNames()
    ensures CommandNames(ElgatoClass) == [
      "bright", "brighter", "cool", "cooler", "dim", "dimmer",
      "get_commands", "get_scenes", "off", "on", "toggle", "warm", "warmer"]
  {
    ElgatoRuns();
    RunsCommandNames(DunderAttrs, HelperAttrs, AttrsBrightToCooler, AttrsDimToIpAddress,
                     AttrsIsOnToOn, SceneAttrs, AttrsTemperatureToWarmer);
  }

  /** The client's scene list. */
  lemma ElgatoScenes()
    ensures Scenes(ElgatoClass) == ["daytime", "evening"]
  {
    ElgatoRuns();
    RunsSceneNames(DunderAttrs, HelperAttrs, AttrsBrightToCooler, AttrsDimToIpAddress,
                   AttrsIsOnToOn, SceneAttrs, AttrsTemperatureToWarmer);
  }

  /** A name found in one run of a table, and in no run before it, resolves there. */
  lemma FindInRun(front: seq<Attr>, run: seq<Attr>, back: seq<Attr>, name: string)
    requires Find(front, name) == None
    requires Find(run, name).Some?
    ensures Find(front + run + back, name) == Find(run, name)
  {
    FindAppend(front, run, name);
    FindAppend(front + run, back, name);
  }

  /** A name found in none of several runs is not found in their join. */
  lemma NotFoundInRuns(t1: seq<Attr>, t2: seq<Attr>, t3: seq<Attr>, t4: seq<Attr>, t5: seq<Attr>, name: string)
    requires Find(t1, name) == None && Find(t2, name) == None && Find(t3, name) == None
    requires Find(t4, name) == None && Find(t5, name) == None
    ensures Find(t1 + t2 + t3 + t4 + t5, name) == None
  {
    FindAppend(t1, t2, name);
    FindAppend(t1 + t2, t3, name);
    FindAppend(t1 + t2 + t3, t4, name);
    FindAppend(t1 + t2 + t3 + t4, t5, name);
  }

  /** A table that lists no scene has no scene method to find. */
  lemma NoSceneNoFind(t: seq<Attr>, name: string)
    requires SceneNames(t) == []
    ensures Find(t, ScenePrefix + name) == None
  {
    SceneNamesMembers(t);
    forall x | Attr(ScenePrefix + name, Public(x)) in t
      ensures name in SceneNames(t)
    {
      assert IsSceneAttr(Attr(ScenePrefix + name, Public(x))) by {
        assert (ScenePrefix + name)[..|ScenePrefix|] == ScenePrefix;
      }
    }
  }

  lemma SceneAttrsFind()
    ensures Find(SceneAttrs, ScenePrefix + "evening") == Some(Evening)
    ensures Find(SceneAttrs, ScenePrefix + "daytime") == Some(Daytime)
  {
    assert ScenePrefix + "daytime" == SceneAttrs[0].name;
    assert ScenePrefix + "evening" == SceneAttrs[1].name;
    assert ScenePrefix + "evening" != SceneAttrs[0].name;
    assert Find(SceneAttrs[1..], ScenePrefix + "evening") == Some(Evening);
  }

  /** `getattr` on the client finds the two scene methods with their presets. */
  lemma ElgatoSceneActions()
    ensures Find(ElgatoClass, ScenePrefix + "evening") == Some(Evening)
    ensures Find(ElgatoClass, ScenePrefix + "daytime") == Some(Daytime)
  {
    ElgatoRuns();
    RunsSceneNames(DunderAttrs, HelperAttrs, AttrsBrightToCooler, AttrsDimToIpAddress,
                   AttrsIsOnToOn, SceneAttrs, AttrsTemperatureToWarmer);
    SceneAttrsFind();
    var front := DunderAttrs + HelperAttrs + AttrsBrightToCooler + AttrsDimToIpAddress + AttrsIsOnToOn;
    NoSceneNoFind(front, "evening");
    NoSceneNoFind(front, "daytime");
    FindInRun(front, SceneAttrs, AttrsTemperatureToWarmer, ScenePrefix + "evening");
    FindInRun(front, SceneAttrs, AttrsTemperatureToWarmer, ScenePrefix + "daytime");
  }

  lemma ToggleRunFind()
    ensures Find(AttrsTemperatureToWarmer, "toggle") == Some(Toggle)
  {
  }

  /** No run before the one holding `toggle` has an attribute of that name. */
  lemma ToggleAbsentBefore()
    ensures Find(DunderAttrs, "toggle") == None && Find(HelperAttrs, "toggle") == None
    ensures Find(AttrsBrightToCooler, "toggle") == None && Find(AttrsDimToIpAddress, "toggle") == None
    ensures Find(AttrsIsOnToOn, "toggle") == None && Find(SceneAttrs, "toggle") == None
  {
    ToggleNotPrivate();
    ToggleNotBrightToIpAddress();
    ToggleNotIsOnToScene();
  }

  lemma ToggleNotPrivate()
    ensures Find(DunderAttrs, "toggle") == None && Find(HelperAttrs, "toggle") == None
  {
  }

  lemma ToggleNotBrightToIpAddress()
    ensures Find(AttrsBrightToCooler, "toggle") == None && Find(AttrsDimToIpAddress, "toggle") == None
  {
  }

  lemma ToggleNotIsOnToScene()
    ensures Find(AttrsIsOnToOn, "toggle") == None && Find(SceneAttrs, "toggle") == None
  {
    assert Find(SceneAttrs[1..], "toggle") == None;
  }

  /** `getattr(light, "toggle")` is the toggle action. */
  lemma ElgatoFindToggle()
    ensures Find(ElgatoClass, "toggle") == Some(Toggle)
  {
    ToggleRunFind();
    ToggleAbsentBefore();
    NotFoundInRuns(DunderAttrs, HelperAttrs, AttrsBrightToCooler, AttrsDimToIpAddress, AttrsIsOnToOn, "toggle");
    var front := DunderAttrs + HelperAttrs + AttrsBrightToCooler + AttrsDimToIpAddress + AttrsIsOnToOn;
    FindAppend(front, SceneAttrs, "toggle");
    FindAppend(front + SceneAttrs, AttrsTemperatureToWarmer, "toggle");
  }

  /** The client class meets the table's well-formedness condition. */
  lemma ElgatoWellFormed()
    ensures WellFormed(ElgatoClass)
  {
    ElgatoRuns();
    var t := DunderAttrs + HelperAttrs;
    WellFormedAppend(DunderAttrs, HelperAttrs);
    WellFormedAppend(t, AttrsBrightToCooler);
    WellFormedAppend(t + AttrsBrightToCooler, AttrsDimToIpAddress);
    WellFormedAppend(t + AttrsBrightToCooler + AttrsDimToIpAddress, AttrsIsOnToOn);
    WellFormedAppend(t + AttrsBrightToCooler + AttrsDimToIpAddress + AttrsIsOnToOn, SceneAttrs);
    WellFormedAppend(t + AttrsBrightToCooler + AttrsDimToIpAddress + AttrsIsOnToOn + SceneAttrs,
                     AttrsTemperatureToWarmer);
  }

  /** Well-formedness is a property of each attribute, so it survives joining tables. */
  lemma WellFormedAppend(t: seq<Attr>, u: seq<Attr>)
    requires WellFormed(t) && WellFormed(u)
    ensures WellFormed(t + u)
  {
  }
}

=== FILE: wrappers.dfy ===
/** Optional values: a JSON key that may be absent. */
module Wrappers {

  datatype Option<+T> = None | Some(value: T) {

    /** The value, or `default` when absent (Python's `dict.get(key, default)`). */
    function GetOr(default: T): T {
      match this
      case Some(v) => v
      case None => default
    }
  }
}
